=== FILE: README.md ===
# oku-api-project backtest preparation, modelled in Dafny

The oku-api-project prepares Uniswap v3 liquidity-position backtests and
sends them to the remote Oku service. There are three copies of the
preparation: the interactive command-line tool (`src/index.ts`), and two
Next.js routes of the web front end (`frontend/pages/api/backtest.js` and
`frontend/pages/api/pools.js`). This project models what they compute
locally:

- the fee-tier to tick-spacing table;
- the tick range, from a reference tick and a per-side offset or the word
  "infinite", aligned down (lower) and up (upper) to the tick spacing, with
  nothing clamping the result and nothing checking `lower < upper`;
- the deposit encoding: `round(amount * 10^decimals)` printed as `"0x"`
  followed by `BigInt.toString(16)`, which for a non-negative amount is the
  Ethereum JSON-RPC QUANTITY form, with its parser and both round trips;
- the backtest window: `now - daysBack * 86400000 .. now` in timestamp
  mode, `liveBlock - daysBack * 6600 .. liveBlock` in block mode;
- the pool list: TVL at least the threshold, positive TVL and fees, then
  JavaScript's `slice(0, n)` (a negative `n` counts back from the end);
- the CLI's `main` from the pool listing to the backtest call, and both
  route handlers, with their early exits and error responses.

The three copies are related by lemmas. The CLI and the pools route select
the same pools. The backtest route submits exactly the CLI's timestamp-mode
request when the deposits are positive and both copies get the same side
texts with the same tick offsets, on which they make the same
unbounded-or-offset choice.
The lemmas also pin down where the copies differ: the default pool count,
the guarded amount conversion, and the exact-match test for "infinite".

Modules, one per file:

| file | module | models |
|---|---|---|
| wrappers.dfy | Wrappers | Option and Result |
| js_builtins.dfy | JsBuiltins | `trim`, `toLowerCase`, `Math.round`, `parseInt(..) \|\| d`, `filter`, `slice(0, n)` |
| hex_quantity.dfy | HexQuantity | `BigInt.toString(16)`, the QUANTITY encoding and its strict parser |
| amounts.dfy | Amounts | scaling an amount to base units |
| ticks.dfy | Ticks | tick limits, alignment, range resolution |
| oku_data.dfy | OkuData | pool records, the backtest request, the remote service as a value |
| cli.dfy | Cli | `src/index.ts` |
| backtest_route.dfy | BacktestRoute | `frontend/pages/api/backtest.js`, with its own copies of the spacing table, the amount conversion and the window |
| pools_route.dfy | PoolsRoute | `frontend/pages/api/pools.js` |

Numbers are exact: JavaScript doubles become `real` and `int`. A parsed
number is an `Option` (None for NaN); the finite values it holds are the
only numbers modelled, so parses to ±Infinity and NaN tick offsets are left
out (see below). The remote service is a `Remote`
value whose calls are total functions. The current time is a parameter.

## Model

| member | source | states |
|---|---|---|
| JsBuiltins.Trim | src/index.ts:243 | the result starts and ends with a non-whitespace character, is no longer than the input, and is empty exactly when the input is all whitespace |
| JsBuiltins.TrimRemovesPadding | src/index.ts:249 | trimming whitespace padding around a core that neither starts nor ends with whitespace gives exactly the core |
| JsBuiltins.ToLower | src/index.ts:275 | same length; every character is lower-cased one by one (A-Z mapped, everything else kept) |
| JsBuiltins.JsRound | src/index.ts:28 | Math.round gives the integer n with n - 0.5 <= x < n + 0.5, so halves round towards +infinity |
| JsBuiltins.IntOr | src/index.ts:200 | `parseInt(..) \|\| fallback`: a parsed non-zero value is kept; NaN and 0 give the fallback |
| JsBuiltins.RealOr | src/index.ts:202 | `parseFloat(..) \|\| fallback`: a parsed non-zero value is kept; NaN and 0 give the fallback |
| JsBuiltins.Filter | src/index.ts:212-221 | the result is no longer than the input and holds exactly the input elements satisfying the test |
| JsBuiltins.FilterAppend | src/index.ts:212-221 | filtering a concatenation is the concatenation of the filtered parts, so the kept elements keep their order |
| JsBuiltins.FilterTwice | src/index.ts:212-221 | two filters in a row equal one filter by the conjunction of their tests |
| JsBuiltins.FilterCongruent | frontend/pages/api/pools.js:21-28 | filters whose tests agree on every element keep the same elements |
| JsBuiltins.SliceEnd | src/index.ts:222 | `slice(0, end)` stops at min(end, length) for end >= 0 and at max(length + end, 0) for a negative end |
| JsBuiltins.Slice | src/index.ts:222 | `slice(0, end)` is a prefix of the input whose length is that stop index |
| HexQuantity.SignedHexDenotes | src/index.ts:29 | `toString(16)` of any integer prints canonical hex digits of its value, after a minus sign when it is negative |
| HexQuantity.HexDigits | src/index.ts:29 | `BigInt.toString(16)` of a non-negative value: lower-case hex digits, no leading zero unless the value is 0 |
| HexQuantity.ValueOfHexDigits | src/index.ts:29 | the printed digits denote the value printed |
| HexQuantity.HexDigitsOfValue | src/index.ts:29 | canonical digits are what `toString(16)` prints for the number they denote |
| HexQuantity.Encode | src/index.ts:29 | the QUANTITY form: "0x" then canonical digits; "0x0" exactly for zero |
| HexQuantity.DecodeEncode | src/index.ts:29 | the strict parser reads every encoding back to the encoded number |
| HexQuantity.EncodeDecode | src/index.ts:29 | every string the parser accepts is the encoding of the number it reads, so Encode is a bijection onto canonical QUANTITY strings |
| HexQuantity.EncodeInjective | src/index.ts:29 | different amounts never encode alike |
| HexQuantity.Encode1500000 | src/index.ts:29 | 1500000 encodes as "0x16e360" |
| HexQuantity.Encode123456789 | src/index.ts:29 | 123456789 encodes as "0x75bcd15" |
| Amounts.Pow10 | src/index.ts:28 | 10^decimals is at least 1 |
| Amounts.ScaledAmount | src/index.ts:28 | `Math.round(amount * 10^decimals)` is the integer n with n - 0.5 <= amount * 10^decimals < n + 0.5: the nearest integer, halves up |
| Amounts.ScaledAmountSign | frontend/pages/api/backtest.js:25-28 | a positive amount never scales below zero; a non-positive one never above zero |
| Amounts.ScaledAmountExact | src/index.ts:28 | an amount that is a whole number of base units scales back to exactly that number |
| Ticks.RawLower | src/index.ts:275-281 | an unbounded lower side is MIN_TICK; otherwise the raw lower bound lies the side's offset away from the reference tick |
| Ticks.RawUpper | src/index.ts:282-288 | an unbounded upper side is MAX_TICK; otherwise the raw upper bound lies the side's offset away from the reference tick |
| Ticks.AlignDown | src/index.ts:291 | `floor(raw / s) * s` is a multiple of s with raw - s < result <= raw |
| Ticks.AlignUp | src/index.ts:292 | `ceil(raw / s) * s` is a multiple of s with raw <= result < raw + s |
| Ticks.AlignDownIsGreatest | src/index.ts:291 | every multiple of s at most raw is at most the aligned lower bound |
| Ticks.AlignUpIsLeast | src/index.ts:292 | every multiple of s at least raw is at least the aligned upper bound |
| Ticks.AlignAligned | src/index.ts:345-346 | aligning a multiple of the spacing, in either direction, leaves it unchanged |
| Ticks.Resolve | src/index.ts:273-292 | both ends are multiples of the spacing; lower is within one spacing below the raw lower bound, upper within one spacing above the raw upper bound |
| Ticks.ResolveIsTightest | src/index.ts:290-292 | any aligned range covering the raw bounds covers the resolved range |
| Ticks.ResolveContainsReference | src/index.ts:279-292 | for a reference tick within [MIN_TICK, MAX_TICK], an offset below <= 0 (or unbounded) and an offset above >= 0 (or unbounded) give a range containing the reference tick |
| Ticks.UnboundedIgnoresReference | src/index.ts:322-349 | with both sides unbounded the reference tick plays no part, so skipping the recalculation changes nothing |
| Ticks.UnboundedLeavesTickLimits | src/index.ts:38-39 | for every spacing of the table an unbounded side lands outside [-887272, 887272]: nothing clamps |
| Ticks.UnboundedRangeSpacing60 | src/index.ts:275-292 | with spacing 60 the unbounded range is (-887280, 887280) |
| Ticks.ZeroOffsetsGiveEmptyRange | src/index.ts:279-293 | zero offsets around an aligned reference tick give lower == upper, and nothing rejects it |
| Ticks.TenPercentAroundZero | src/index.ts:279-292 | offsets -1054 and 953 around tick 0 with spacing 60 give (-1080, 960) |
| Cli.TickSpacing | src/index.ts:42-50 | the spacing is 10, 60 or 200; 10 exactly for fee 500, 200 exactly for fee 10000, 60 otherwise |
| Cli.FeeTier100FallsBack | src/index.ts:48-49 | the fee tier 100 falls back to spacing 60 |
| Cli.SideBound | src/index.ts:275-288 | a side is unbounded exactly when its trimmed, lower-cased answer is "infinite"; otherwise its offset is the answer's offset |
| Cli.InfiniteIgnoresPadding | src/index.ts:275-288 | whitespace padding never changes whether a side answer means "infinite": the padded answer does exactly when its lower-cased core is "infinite" |
| Cli.PaddedCapitalisedIsInfinite | src/index.ts:275 | " Infinite" followed by a newline counts as "infinite" |
| Cli.AmountToHex | src/index.ts:26-30 | the conversion succeeds exactly when the amount parsed; NaN makes BigInt throw its RangeError |
| Cli.AmountToHexIsQuantity | src/index.ts:26-30 | a non-negative base-unit amount is sent as its QUANTITY encoding and parses back to it; a negative one is sent as "0x-..." which no QUANTITY parser accepts |
| Cli.AmountOneAndAHalfSixDecimals | src/index.ts:26-30 | 1.5 with 6 decimals is sent as "0x16e360" |
| Cli.AmountEightDecimals | src/index.ts:26-30 | 1.23456789 with 8 decimals is sent as "0x75bcd15" |
| Cli.AmountZero | src/index.ts:26-30 | 0 is sent as "0x0" for any decimals |
| Cli.TimestampWindow | src/index.ts:312-314 | the window ends now, spans daysBack * 86400000 ms, and starts no later than it ends exactly when daysBack >= 0 |
| Cli.FarPastWindowIsInvalid | src/index.ts:314-315 | with a valid current time, a window reaching back more than 200 million days starts before the earliest JavaScript Date, so printing it throws |
| Cli.RealisticWindowIsPrintable | src/index.ts:314-315 | with a current time between 1970 and 2096, every window of 0 to 100 million days back can be printed |
| Cli.BlockWindow | src/index.ts:371-372 | the window ends at the live block, spans daysBack * 6600 blocks, and starts no later than it ends exactly when daysBack >= 0 |
| Cli.TwoFiltersQualify | src/index.ts:212-221 | the TVL filter followed by the positive-APR filter keeps exactly the qualifying pools, in input order |
| Cli.ChosenAddress | src/index.ts:248-251 | a blank answer picks the first listed pool's address; any other answer is used as given, untrimmed |
| Cli.PositiveAprMeansPositiveFees | src/index.ts:214-220 | over exact reals the estimated APR is positive exactly when TVL and fees both are |
| Cli.SelectPools | src/index.ts:211-222 | the list is a prefix of the qualifying pools in input order, of the length `slice` gives, and every listed pool is an input pool with TVL >= threshold, TVL > 0 and fees > 0 |
| Cli.Run | src/index.ts:198-412 | no active pools, no qualifying pools, and a declined prompt each end the run exactly in their case; after that the run fails exactly on a NaN deposit or, in timestamp mode, a window whose ends are not valid Dates; otherwise the submitted request is the planned one on the chosen (or first listed) pool |
| Cli.DeriveRange | src/index.ts:273-292 | the imperative derivation gives exactly the resolved range for the answers' bounds |
| Cli.PrepareBacktest | src/index.ts:253-412 | fails exactly on a NaN deposit (with BigInt's RangeError) or, in timestamp mode, on a window whose ends are not valid Dates (with toISOString's RangeError, before the tick lookup and the backtest call); otherwise submits the range resolved around the tick at the window's start (timestamp mode) or the last tick (block mode), the encoded deposits and the window |
| BacktestRoute.TimestampWindow | frontend/pages/api/backtest.js:12-58 | the window ends now, spans daysBack * 86400000 ms, and starts no later than it ends exactly when daysBack >= 0 |
| BacktestRoute.WindowMatchesCli | frontend/pages/api/backtest.js:56-58 | the route's window equals the CLI's timestamp-mode window |
| BacktestRoute.TickSpacing | frontend/pages/api/backtest.js:15-20 | the spacing is 10, 60 or 200, and 60 exactly for fees other than 500 and 10000 |
| BacktestRoute.TickSpacingMatchesCli | frontend/pages/api/backtest.js:15-20 | the route's table equals the CLI's for every fee |
| BacktestRoute.AmountToHex | frontend/pages/api/backtest.js:23-30 | for every finite amount (NaN included) the result parses as a QUANTITY: never a negative encoding |
| BacktestRoute.SentUnits | frontend/pages/api/backtest.js:25-28 | the units sent are 0 for NaN or a non-positive amount and the rounded scaled amount otherwise |
| BacktestRoute.AmountToHexIsQuantity | frontend/pages/api/backtest.js:23-30 | the route sends the QUANTITY encoding of the units it means, and it parses back to them |
| BacktestRoute.AmountToHexMatchesCli | frontend/pages/api/backtest.js:23-30 | for a positive amount the route and the CLI send the same string |
| BacktestRoute.NegativeAmountSentAsZero | frontend/pages/api/backtest.js:25-27 | an amount the CLI would send with a minus sign is sent by the route as "0x0" |
| BacktestRoute.RouteBound | frontend/pages/api/backtest.js:69-82 | a side is unbounded exactly when its value is "infinite" as is, with no trimming or case folding |
| BacktestRoute.InfiniteIsInfiniteToCli | frontend/pages/api/backtest.js:69 | the bare word "infinite" is unbounded for the CLI too |
| BacktestRoute.BoundsDifferOnlyOnUnnormalisedInfinite | frontend/pages/api/backtest.js:69-82 | on the unbounded test only: the route and the CLI make a different unbounded-or-offset choice for a side exactly when the CLI sees "infinite" after trimming and lower-casing but the raw value is something else (the side's offset is a shared input) |
| BacktestRoute.PaddedInfiniteIsAnOffset | frontend/pages/api/backtest.js:77-82 | " Infinite" with a trailing newline is unbounded for the CLI, while the route takes the numeric branch for it, where the source computes NaN ticks |
| BacktestRoute.Handle | frontend/pages/api/backtest.js:32-104 | a method other than POST gets 405 and a missing or empty pool address 400; otherwise the submitted request resolves the range around the tick at the window's start (the last tick is fetched and ignored), with the guarded deposits and the timestamp window |
| BacktestRoute.RouteRequestMatchesCli | frontend/pages/api/backtest.js:52-101 | for the same pool, positive deposits, days, and the same side texts with the same offsets on which both copies make the same unbounded-or-offset choice, the route submits exactly the CLI's timestamp-mode request |
| PoolsRoute.TwoFiltersQualify | frontend/pages/api/pools.js:19-28 | the route's TVL filter followed by its fee filter keeps exactly the qualifying pools, in input order |
| PoolsRoute.SecondFiltersAgree | frontend/pages/api/pools.js:21-28 | the route's fee filter and the CLI's positive-APR filter keep the same pools of any list |
| PoolsRoute.SelectPools | frontend/pages/api/pools.js:19-29 | the list is a prefix of the qualifying pools, of the length `slice` gives, and every listed pool is an input pool with TVL >= threshold, TVL > 0 and fees > 0 |
| PoolsRoute.SelectionsAgree | frontend/pages/api/pools.js:19-29 | the route's selection equals the CLI's for every pool list, count and threshold |
| PoolsRoute.Handle | frontend/pages/api/pools.js:3-31 | a method other than GET gets 405 whatever the upstream answers; a missing pool list gets 500; otherwise 200 with the selection under `num \|\| 10` and `minTvl \|\| 0` |
| PoolsRoute.DefaultListsAtMostTen | frontend/pages/api/pools.js:8 | without a usable `num` at most ten pools are listed |
| PoolsRoute.RouteListsWhatCliLists | frontend/pages/api/pools.js:8-29 | with the same effective count and threshold the route lists exactly the pools the CLI offers |
| PoolsRoute.DefaultCountsDiffer | frontend/pages/api/pools.js:8 | with no count given, the route's and the CLI's lists agree exactly when at most ten pools qualify |

## Left out

- The percentage to tick-offset conversion `round(log(1 ± p/100) / log(1.0001))` (src/index.ts:279, 286, 330, 338; frontend/pages/api/backtest.js:72, 80) is floating-point logarithms. Each side's offset is an integer input. A percentage of 100 or more below, which yields -Infinity or NaN there, is not modelled.
- The product `amount * Math.pow(10, decimals)` is computed over exact reals. Floating-point drift and amounts too large for a double are not modelled.
- Parsing text with `parseInt`/`parseFloat` is not modelled. The parsed values are inputs: an `Option`, with None for NaN.
- A side text that is not "infinite" (exactly, in the backtest route; after trimming and lower-casing, in the CLI) and that the copy cannot read as a number makes the percentage NaN, and that copy then computes NaN ticks (src/index.ts:278-280, 285-287; frontend/pages/api/backtest.js:72-73, 80-81). The model has no NaN tick: such a side is an offset like any other, carried by the side's integer offset input. BacktestRoute.PaddedInfiniteIsAnOffset is one such input.
- The two copies read a numeric side text differently, and the model does not capture it: the CLI uses `parseFloat` (src/index.ts:278, 285), the route coerces the value with `pctBelow / 100` and `pctAbove / 100` (frontend/pages/api/backtest.js:72, 80). A blank text is NaN for the CLI but 0% for the route (raw bound = initial tick); "0x10" is 0% for the CLI but 16% for the route; "10%" is 10% for the CLI but NaN for the route. The model gives each side one integer offset shared by both copies.
- BacktestRoute.BoundsDifferOnlyOnUnnormalisedInfinite: covers only the unbounded test; where the copies differ on the percentage of a numeric text (previous line) is not stated.
- BacktestRoute.RouteRequestMatchesCli: the agreement assumes both copies get the same offset for a side text; for texts that `parseFloat` and `/ 100` read differently (previous lines) the copies submit different ranges, which is not modelled.
- BacktestRoute.TimestampWindow: the route's `daysBack` is modelled as an integer. The source multiplies whatever JSON value arrives (frontend/pages/api/backtest.js:44, 58): a missing one gives NaN timestamps that reach the tick lookup and the backtest call, "" gives an empty window, a numeric string is coerced, and a fraction gives a fractional-day window. None of these is modelled.
- An infinite amount is not modelled: `parseFloat("Infinity")`, `parseFloat("1e400")` or a product `amount * 10^decimals` that overflows a double make `BigInt` throw, so the CLI ends in its console error and the backtest route answers 500 (src/index.ts:28; frontend/pages/api/backtest.js:28). The model's amounts are finite reals.
- The CLI's days answer is an integer. The CLI's `parseInt` of the days answer can be NaN; in timestamp mode that makes `toISOString` throw at src/index.ts:315 just as a too-distant start does, and in block mode it gives a NaN block window. The NaN answer itself is not modelled.
- The remote service (src/okuApi.ts, frontend/api/okuApiClient.js) is not part of this model beyond its answers, which are total functions of a `Remote` value. Transport failures are not modelled, and neither are the `catch` branches they reach: the CLI's console error, and the 500 responses of both routes.
- The remote backtest result is not modelled. The CLI ends in the submitted request. The backtest route relays the result with status 200, modelled as `Submit(request)`.
- The CLI's console output and `renderBacktestSummary` (src/index.ts:58-190) are presentation only and not modelled.
- The deletion of `historic_fees` from the response (src/index.ts:395-401) and the unused `convertToUSD` (src/index.ts:53-55) are not modelled.
- `readline` prompts become the fields of `Cli.Answers`, and `Date.now()` becomes the parameter `now`.
- The React components and pages of the front end are not modelled.
- JsBuiltins.ToLower: lower-cases only A-Z. The other Unicode case mappings of `toLowerCase` are not modelled.
- In the backtest route's request body, JSON values of other types are not modelled. A number sent for `pctBelow`/`pctAbove` is modelled by a text other than "infinite" together with its offset. A non-string truthy `poolAddress` is not modelled.
- The CLI's `isTimestampBased` is the constant `true` in the source; here it is a parameter, so the block-mode branch is modelled too.
- The code adds no range checks, and the model follows it: Nothing clamps the aligned range to [MIN_TICK, MAX_TICK] and nothing rejects `lower >= upper`; Ticks.UnboundedLeavesTickLimits and Ticks.ZeroOffsetsGiveEmptyRange exhibit both. Negative or too-large percentages are not rejected. The CLI's deposit conversion does not map NaN or non-positive amounts to "0x0": NaN fails, and a negative amount that rounds below zero is sent as "0x-…" (one that rounds to zero is sent as "0x0"). Only the backtest route guards them.

=== FILE: amounts.dfy ===
/** Scaling a human-readable token amount to base units: the product
    `amountFloat * Math.pow(10, decimals)` rounded by Math.round, computed
    over exact reals. */
module Amounts {
  import opened JsBuiltins

  function Pow10(n: nat): (p: nat)
    ensures p >= 1
  {
    if n == 0 then 1 else 10 * Pow10(n - 1)
  }

  /** The base-unit amount: Math.round(amount * 10^decimals), the integer
      nearest to the exact product, halves rounded up. */
  function ScaledAmount(amount: real, decimals: nat): (n: int)
    ensures n as real - 0.5 <= amount * Pow10(decimals) as real < n as real + 0.5
  {
    JsRound(amount * Pow10(decimals) as real)
  }

  /** A positive amount never scales to a negative number of base units; a
      non-positive one never scales to a positive number. */
  lemma ScaledAmountSign(amount: real, decimals: nat)
    ensures amount > 0.0 ==> ScaledAmount(amount, decimals) >= 0
    ensures amount <= 0.0 ==> ScaledAmount(amount, decimals) <= 0
  {
    var p := Pow10(decimals) as real;
    assert amount > 0.0 ==> amount * p > 0.0;
    assert amount <= 0.0 ==> amount * p <= 0.0;
  }

  /** An amount that is already a whole number of base units scales exactly. */
  lemma ScaledAmountExact(units: int, decimals: nat)
    ensures ScaledAmount(units as real / Pow10(decimals) as real, decimals) == units
  {
    var p := Pow10(decimals) as real;
    assert (units as real / p) * p == units as real;
  }
}

=== FILE: backtest_route.dfy ===
/** The backtest route of the web front end (frontend/pages/api/backtest.js):
    a POST carrying a pool address, per-side offsets, two deposits and a
    number of days becomes a timestamp-window backtest request whose tick
    range is resolved around the pool's tick at the window's start. */
module BacktestRoute {
  import opened Wrappers
  import opened HexQuantity
  import opened Amounts
  import opened Ticks
  import opened OkuData
  import Cli

  /** Milliseconds in a day: the route's timestamp window is daysBack of them. */
  const MS_PER_DAY: int := 24 * 60 * 60 * 1000

  /** The route's timestamp window: it ends now and starts daysBack days of
      milliseconds earlier. */
  function TimestampWindow(now: int, daysBack: int): (w: Window)
    ensures w.Timestamps? && w.end == now
    ensures w.end - w.start == daysBack * 86400000
    ensures w.start <= w.end <==> daysBack >= 0
  {
    Timestamps(now - daysBack * MS_PER_DAY, now)
  }

  /** The route computes the same window as the CLI in timestamp mode. */
  lemma WindowMatchesCli(now: int, daysBack: int)
    ensures TimestampWindow(now, daysBack) == Cli.TimestampWindow(now, daysBack)
  {
  }

  /** The route's copy of the fee-tier to tick-spacing table. */
  function TickSpacing(fee: int): (s: int)
    ensures s == 10 || s == 60 || s == 200
    ensures s == 60 <==> fee != 500 && fee != 10000
  {
    if fee == 500 then 10
    else if fee == 3000 then 60
    else if fee == 10000 then 200
    else 60
  }

  /** Both copies of the table give the same spacing for every fee. */
  lemma TickSpacingMatchesCli(fee: int)
    ensures TickSpacing(fee) == Cli.TickSpacing(fee)
  {
  }

  /** The route's convertAmountToHex: a NaN (None) or non-positive amount is
      sent as "0x0"; any other amount as the CLI sends it. Either way the
      result is a well-formed QUANTITY. */
  function AmountToHex(amount: Option<real>, decimals: nat): (hex: string)
    ensures Decode(hex).Some?
  {
    if amount.None? || amount.value <= 0.0 then
      DecodeEncode(0);
      "0x0"
    else
      ScaledAmountSign(amount.value, decimals);
      var n := ScaledAmount(amount.value, decimals);
      DecodeEncode(n);
      assert "0x" + SignedHex(n) == Encode(n);
      "0x" + SignedHex(n)
  }

  /** The number of base units the route sends: zero for a NaN or
      non-positive amount, the rounded scaled amount otherwise. */
  function SentUnits(amount: Option<real>, decimals: nat): (n: nat)
    ensures amount.Some? && amount.value > 0.0 ==> n == ScaledAmount(amount.value, decimals)
    ensures amount.None? || amount.value <= 0.0 ==> n == 0
  {
    if amount.None? || amount.value <= 0.0 then 0
    else
      ScaledAmountSign(amount.value, decimals);
      ScaledAmount(amount.value, decimals)
  }

  /** The route always sends the QUANTITY encoding of the units it means,
      and that encoding parses back to them. */
  lemma AmountToHexIsQuantity(amount: Option<real>, decimals: nat)
    ensures AmountToHex(amount, decimals) == Encode(SentUnits(amount, decimals))
    ensures Decode(AmountToHex(amount, decimals)) == Some(SentUnits(amount, decimals))
  {
    var n := SentUnits(amount, decimals);
    DecodeEncode(n);
    if amount.None? || amount.value <= 0.0 {
      assert HexDigits(0) == "0";
    }
  }

  /** For a positive amount the guarded and the unguarded conversion agree. */
  lemma AmountToHexMatchesCli(amount: real, decimals: nat)
    requires amount > 0.0
    ensures Cli.AmountToHex(Some(amount), decimals) == Ok(AmountToHex(Some(amount), decimals))
  {
  }

  /** A negative amount, which the CLI sends with a minus sign, is sent by the
      route as "0x0". */
  lemma NegativeAmountSentAsZero(amount: real, decimals: nat)
    requires ScaledAmount(amount, decimals) < 0
    ensures AmountToHex(Some(amount), decimals) == "0x0"
    ensures Decode(Cli.AmountToHex(Some(amount), decimals).value) == None
  {
    ScaledAmountSign(amount, decimals);
    Cli.AmountToHexIsQuantity(amount, decimals);
  }

  /** The route's test for an unbounded side: the value is exactly
      "infinite", with no trimming or case folding. */
  function RouteBound(side: SideInput): (b: Bound)
    ensures b == Unbounded <==> side.text == "infinite"
    ensures b.Offset? ==> b.ticks == side.offset
  {
    if side.text == "infinite" then Unbounded else Offset(side.offset)
  }

  /** The bare word "infinite" means an unbounded side to the CLI as well. */
  lemma InfiniteIsInfiniteToCli()
    ensures Cli.IsInfinite("infinite")
  {
    var word := "infinite";
    assert JsBuiltins.LeadingWhitespace(word) == 0 && JsBuiltins.TrailingWhitespace(word) == 0;
    assert word[0..][..|word| - 0] == word;
    assert JsBuiltins.Trim(word) == word;
    assert forall i :: 0 <= i < |word| ==> !('A' <= word[i] <= 'Z');
    assert JsBuiltins.ToLower(word) == word;
  }

  /** The route and the CLI make a different unbounded-or-offset choice for
      a side exactly when the CLI, after trimming and lower-casing, sees
      "infinite" but the raw value is something else. (How each copy turns
      a numeric text into a percentage is outside this lemma: the side's
      offset is one input shared by both.) */
  lemma BoundsDifferOnlyOnUnnormalisedInfinite(side: SideInput)
    ensures RouteBound(side) != Cli.SideBound(side) <==>
      Cli.IsInfinite(side.text) && side.text != "infinite"
  {
    if side.text == "infinite" {
      InfiniteIsInfiniteToCli();
    }
  }

  /** " Infinite" followed by a newline is unbounded for the CLI, while the
      route takes the numeric branch for it (where `/ 100` gives NaN and the
      route computes NaN ticks; the model carries the side's offset). */
  lemma PaddedInfiniteIsAnOffset(offset: int)
    ensures RouteBound(SideInput(" " + "Infinite" + "\n", offset)) == Offset(offset)
    ensures Cli.SideBound(SideInput(" " + "Infinite" + "\n", offset)) == Unbounded
  {
    Cli.PaddedCapitalisedIsInfinite();
  }

  /** A side value for which both copies make the same unbounded-or-offset
      choice: the exact word, or one the CLI does not take for "infinite"
      either. */
  predicate SameUnboundedChoice(side: SideInput) {
    side.text == "infinite" || !Cli.IsInfinite(side.text)
  }

  /** The JSON body of the request, after parseFloat of the deposits
      (None for NaN). A missing or falsy pool address is None; a truthy
      non-string one is not modelled. `daysBack` is an integer number of
      days. */
  datatype Body = Body(
    poolAddress: Option<string>,
    pctBelow: SideInput,
    pctAbove: SideInput,
    token0Amount: Option<real>,
    token1Amount: Option<real>,
    daysBack: int)

  /** How the handler answers: an error status with its message, or the
      backtest request whose result it relays with status 200. */
  datatype Response =
    | Respond(status: int, error: string)
    | Submit(request: BacktestRequest)

  /** `poolAddress` is truthy: present and not the empty string. */
  predicate HasPoolAddress(body: Body) {
    body.poolAddress.Some? && body.poolAddress.value != ""
  }

  /** The request the route submits: the range resolved around the tick at
      the window's start (the pool's last tick plays no part), the two
      guarded deposits, and the timestamp window ending now. */
  function PlannedRequest(body: Body, remote: Remote, now: int): BacktestRequest
    requires HasPoolAddress(body)
  {
    var address := body.poolAddress.value;
    var details := remote.details(address);
    var window := TimestampWindow(now, body.daysBack);
    BacktestRequest(
      address,
      Resolve(remote.tickAt(address, window.start), TickSpacing(details.fee),
              RouteBound(body.pctBelow), RouteBound(body.pctAbove)),
      AmountToHex(body.token0Amount, details.token0Decimals),
      AmountToHex(body.token1Amount, details.token1Decimals),
      window)
  }

  /** The handler: reject a method other than POST with 405 and a missing
      pool address with 400, before any remote call; otherwise fetch the
      pool's details, last tick and tick at the window's start, derive the
      aligned range from the start tick, encode the deposits and submit. */
  method Handle(httpMethod: string, body: Body, remote: Remote, now: int)
    returns (response: Response)
    ensures httpMethod != "POST" ==> response == Respond(405, "Method not allowed")
    ensures httpMethod == "POST" && !HasPoolAddress(body) ==>
      response == Respond(400, "Pool address is required")
    ensures httpMethod == "POST" && HasPoolAddress(body) ==>
      response == Submit(PlannedRequest(body, remote, now))
  {
    if httpMethod != "POST" {
      return Respond(405, "Method not allowed");
    }
    if body.poolAddress.None? || body.poolAddress.value == "" {
      return Respond(400, "Pool address is required");
    }
    var poolAddress := body.poolAddress.value;
    var poolDetails := remote.details(poolAddress);
    var currentTick := remote.lastTick(poolAddress);
    var window := TimestampWindow(now, body.daysBack);
    var initialTick := remote.tickAt(poolAddress, window.start);
    var tickSpacing := TickSpacing(poolDetails.fee);

    var rawTickLower: int;
    var rawTickUpper: int;
    if body.pctBelow.text == "infinite" {
      rawTickLower := MIN_TICK;
    } else {
      rawTickLower := initialTick + body.pctBelow.offset;
    }
    if body.pctAbove.text == "infinite" {
      rawTickUpper := MAX_TICK;
    } else {
      rawTickUpper := initialTick + body.pctAbove.offset;
    }
    assert rawTickLower == RawLower(initialTick, RouteBound(body.pctBelow));
    assert rawTickUpper == RawUpper(initialTick, RouteBound(body.pctAbove));
    var tickLower := AlignDown(rawTickLower, tickSpacing);
    var tickUpper := AlignUp(rawTickUpper, tickSpacing);

    var token0AmountHex := AmountToHex(body.token0Amount, poolDetails.token0Decimals);
    var token1AmountHex := AmountToHex(body.token1Amount, poolDetails.token1Decimals);
    response := Submit(BacktestRequest(
      poolAddress, TickRange(tickLower, tickUpper),
      token0AmountHex, token1AmountHex, window));
  }

  /** For the same pool, the same side texts with the same offsets, positive
      deposits and days, and side texts on which both copies make the same
      unbounded-or-offset choice, the route submits exactly the request the
      CLI submits in timestamp mode. */
  lemma RouteRequestMatchesCli(body: Body, answers: Cli.Answers, remote: Remote, now: int)
    requires HasPoolAddress(body)
    requires answers.below == body.pctBelow && answers.above == body.pctAbove
    requires SameUnboundedChoice(body.pctBelow) && SameUnboundedChoice(body.pctAbove)
    requires answers.amount0 == body.token0Amount && answers.amount1 == body.token1Amount
    requires body.token0Amount.Some? && body.token0Amount.value > 0.0
    requires body.token1Amount.Some? && body.token1Amount.value > 0.0
    requires answers.daysBack == body.daysBack
    ensures PlannedRequest(body, remote, now)
         == Cli.PlannedRequest(answers, remote, now, true, body.poolAddress.value)
  {
    BoundsDifferOnlyOnUnnormalisedInfinite(body.pctBelow);
    BoundsDifferOnlyOnUnnormalisedInfinite(body.pctAbove);
    var details := remote.details(body.poolAddress.value);
    TickSpacingMatchesCli(details.fee);
    WindowMatchesCli(now, body.daysBack);
    AmountToHexMatchesCli(body.token0Amount.value, details.token0Decimals);
    AmountToHexMatchesCli(body.token1Amount.value, details.token1Decimals);
  }
}

=== FILE: cli.dfy ===
/** The command-line flow of src/index.ts: list qualifying pools, derive a
    tick range from the pool's tick and the user's per-side offsets, encode
    the deposits, and build the backtest request for a timestamp or block
    window. */
module Cli {
  import opened Wrappers
  import opened JsBuiltins
  import opened HexQuantity
  import opened Amounts
  import opened Ticks
  import opened OkuData

  const BLOCKS_PER_DAY: int := 6600
  const MS_PER_DAY: int := 24 * 60 * 60 * 1000
  /** Number of pools listed when the answer is empty, unparsable or 0. */
  const DEFAULT_POOL_COUNT: int := 50
  /** The largest distance from the epoch, in milliseconds, that a JavaScript
      Date can hold. */
  const MAX_DATE_MS: int := 8640000000000000

  /** The message of the RangeError BigInt throws for NaN. */
  const NAN_BIGINT_ERROR: string :=
    "RangeError: The number NaN cannot be converted to a BigInt because it is not an integer"
  /** The message of the RangeError toISOString throws for an invalid Date. */
  const INVALID_TIME_ERROR: string := "RangeError: Invalid time value"

  /** Tick spacing of a fee tier: 500 -> 10, 3000 -> 60, 10000 -> 200, and
      60 for every other fee. */
  function TickSpacing(fee: int): (s: int)
    ensures s == 10 || s == 60 || s == 200
    ensures s == 10 <==> fee == 500
    ensures s == 200 <==> fee == 10000
  {
    if fee == 500 then 10
    else if fee == 3000 then 60
    else if fee == 10000 then 200
    else 60
  }

  /** The fee tier 100, which the pool listing requests, falls back to spacing 60. */
  lemma FeeTier100FallsBack()
    ensures TickSpacing(100) == 60
  {
  }

  /** The CLI's test for an unbounded side: the answer, trimmed and lower-cased,
      is "infinite". */
  predicate IsInfinite(text: string) {
    ToLower(Trim(text)) == "infinite"
  }

  function SideBound(side: SideInput): (b: Bound)
    ensures b == Unbounded <==> IsInfinite(side.text)
    ensures b.Offset? ==> b.ticks == side.offset
  {
    if IsInfinite(side.text) then Unbounded else Offset(side.offset)
  }

  /** Whitespace padding never decides whether an answer means "infinite":
      only its lower-cased core does. */
  lemma InfiniteIgnoresPadding(pre: string, core: string, post: string)
    requires IsBlank(pre) && IsBlank(post)
    requires core != [] && !IsJsWhitespace(core[0]) && !IsJsWhitespace(core[|core| - 1])
    ensures IsInfinite(pre + core + post) <==> ToLower(core) == "infinite"
  {
    TrimRemovesPadding(pre, core, post);
  }

  /** Padding and capitals do not stop an answer from meaning "infinite". */
  lemma PaddedCapitalisedIsInfinite()
    ensures IsInfinite(" " + "Infinite" + "\n")
  {
    InfiniteIgnoresPadding(" ", "Infinite", "\n");
    CapitalisedLowersToInfinite();
  }

  lemma CapitalisedLowersToInfinite()
    ensures ToLower("Infinite") == "infinite"
  {
  }

  /** convertAmountToHex: round(amount * 10^decimals) as "0x" followed by
      BigInt.toString(16). A NaN amount (None) makes BigInt throw, with the
      message V8 gives that RangeError. */
  function AmountToHex(amount: Option<real>, decimals: nat): (r: Result<string, string>)
    ensures r.Ok? <==> amount.Some?
  {
    match amount
    case None => Err(NAN_BIGINT_ERROR)
    case Some(x) => Ok("0x" + SignedHex(ScaledAmount(x, decimals)))
  }

  /** A non-negative base-unit amount is sent as its QUANTITY encoding, which
      parses back to it; a negative one gets a minus sign after "0x", which
      no QUANTITY parser accepts. */
  lemma AmountToHexIsQuantity(amount: real, decimals: nat)
    ensures ScaledAmount(amount, decimals) >= 0 ==>
      AmountToHex(Some(amount), decimals) == Ok(Encode(ScaledAmount(amount, decimals)))
      && Decode(AmountToHex(Some(amount), decimals).value) == Some(ScaledAmount(amount, decimals))
    ensures ScaledAmount(amount, decimals) < 0 ==>
      var hex := AmountToHex(Some(amount), decimals).value;
      |hex| >= 3 && hex[..3] == "0x-" && Decode(hex) == None
  {
    var n := ScaledAmount(amount, decimals);
    var hex := AmountToHex(Some(amount), decimals).value;
    if n >= 0 {
      DecodeEncode(n);
    } else {
      assert hex[2] == '-' && !IsHexDigit(hex[2]);
      assert hex[2..][0] == hex[2];
    }
  }

  /** 1.5 with 6 decimals encodes as "0x16e360" (1500000 base units). */
  lemma AmountOneAndAHalfSixDecimals()
    ensures AmountToHex(Some(1.5), 6) == Ok("0x16e360")
  {
    assert ScaledAmount(1.5, 6) == 1500000 by {
      assert Pow10(6) == 1000000;
    }
    AmountToHexIsQuantity(1.5, 6);
    Encode1500000();
  }

  /** 1.23456789 with 8 decimals encodes as "0x75bcd15" (123456789 base units). */
  lemma AmountEightDecimals()
    ensures AmountToHex(Some(1.23456789), 8) == Ok("0x75bcd15")
  {
    assert ScaledAmount(1.23456789, 8) == 123456789 by {
      assert Pow10(8) == 100000000;
    }
    AmountToHexIsQuantity(1.23456789, 8);
    Encode123456789();
  }

  /** Zero encodes as "0x0". */
  lemma AmountZero(decimals: nat)
    ensures AmountToHex(Some(0.0), decimals) == Ok("0x0")
  {
    assert ScaledAmount(0.0, decimals) == 0;
    AmountToHexIsQuantity(0.0, decimals);
  }

  /** The timestamp window ends now and starts daysBack days earlier. */
  function TimestampWindow(now: int, daysBack: int): (w: Window)
    ensures w.Timestamps? && w.end == now
    ensures w.end - w.start == daysBack * 86400000
    ensures w.start <= w.end <==> daysBack >= 0
  {
    Timestamps(now - daysBack * MS_PER_DAY, now)
  }

  /** `new Date(t)` holds a valid time, so that `toISOString` does not throw. */
  predicate IsValidDate(t: int) {
    -MAX_DATE_MS <= t <= MAX_DATE_MS
  }

  /** Both ends of the timestamp window can be printed with `toISOString`. */
  predicate PrintableWindow(now: int, daysBack: int) {
    var w := TimestampWindow(now, daysBack);
    IsValidDate(w.start) && IsValidDate(w.end)
  }

  /** A window reaching back more than 200 million days cannot be printed,
      whatever the (valid) current time: its start lies before the earliest
      Date. */
  lemma FarPastWindowIsInvalid(now: int, daysBack: int)
    requires IsValidDate(now) && daysBack > 200000000
    ensures !PrintableWindow(now, daysBack)
  {
    var w := TimestampWindow(now, daysBack);
    assert w.end - w.start > 200000000 * 86400000;
  }

  /** For a current time between 1970 and 2096 any window of at most 100
      million days back, and none reaching into the future, can be printed. */
  lemma RealisticWindowIsPrintable(now: int, daysBack: int)
    requires 0 <= now <= 4000000000000 && 0 <= daysBack <= 100000000
    ensures PrintableWindow(now, daysBack)
  {
    var w := TimestampWindow(now, daysBack);
    assert w.end - w.start <= 100000000 * 86400000;
  }

  /** The block window ends at the live block and starts daysBack * 6600
      blocks earlier. */
  function BlockWindow(liveBlock: int, daysBack: int): (w: Window)
    ensures w.Blocks? && w.end == liveBlock
    ensures w.end - w.start == daysBack * 6600
    ensures w.start <= w.end <==> daysBack >= 0
  {
    Blocks(liveBlock - daysBack * BLOCKS_PER_DAY, liveBlock)
  }

  /** The first filter: TVL at least the threshold. */
  predicate MeetsTvl(pool: Pool, minTvl: real) {
    pool.tvlUsd >= minTvl
  }

  /** The second filter: positive TVL and a positive estimated APR
      (fees / TVL * 365 * 100). */
  predicate HasPositiveApr(pool: Pool) {
    if pool.tvlUsd > 0.0 then (pool.totalFeesUsd / pool.tvlUsd) * 365.0 * 100.0 > 0.0 else false
  }

  /** Over exact reals the estimated APR is positive exactly when both TVL
      and fees are. */
  lemma PositiveAprMeansPositiveFees(pool: Pool)
    ensures HasPositiveApr(pool) <==> pool.tvlUsd > 0.0 && pool.totalFeesUsd > 0.0
  {
    if pool.tvlUsd > 0.0 {
      var ratio := pool.totalFeesUsd / pool.tvlUsd;
      assert ratio * pool.tvlUsd == pool.totalFeesUsd;
      assert ratio > 0.0 <==> pool.totalFeesUsd > 0.0;
    }
  }

  /** What a pool must satisfy to be listed. */
  predicate Qualifies(pool: Pool, minTvl: real) {
    pool.tvlUsd >= minTvl && pool.tvlUsd > 0.0 && pool.totalFeesUsd > 0.0
  }

  /** The qualifying pools in listing order. */
  function Qualifying(pools: seq<Pool>, minTvl: real): seq<Pool> {
    Filter(pools, p => Qualifies(p, minTvl))
  }

  /** The pool list: filter by TVL, filter by positive APR, slice(0, numPools).
      The result is a prefix of the qualifying pools, of length
      min(numPools, #qualifying) for numPools >= 0; a negative numPools
      drops that many pools from the end. */
  function SelectPools(pools: seq<Pool>, numPools: int, minTvl: real): (r: seq<Pool>)
    ensures r <= Qualifying(pools, minTvl)
    ensures |r| == SliceEnd(|Qualifying(pools, minTvl)|, numPools)
    ensures forall p :: p in r ==> p in pools && Qualifies(p, minTvl)
  {
    var byTvl := Filter(pools, p => MeetsTvl(p, minTvl));
    var byApr := Filter(byTvl, HasPositiveApr);
    TwoFiltersQualify(pools, minTvl);
    Slice(byApr, numPools)
  }

  /** The TVL filter followed by the APR filter keeps exactly the
      qualifying pools, in their listing order. */
  lemma TwoFiltersQualify(pools: seq<Pool>, minTvl: real)
    ensures Filter(Filter(pools, p => MeetsTvl(p, minTvl)), HasPositiveApr)
         == Qualifying(pools, minTvl)
  {
    forall p | p in pools
      ensures (MeetsTvl(p, minTvl) && HasPositiveApr(p)) == Qualifies(p, minTvl)
    {
      PositiveAprMeansPositiveFees(p);
    }
    FilterTwice(pools, p => MeetsTvl(p, minTvl), HasPositiveApr, p => Qualifies(p, minTvl));
  }

  /** The user's answers to the CLI prompts, in the order they are asked.
      Numbers are the results of parseInt / parseFloat, None for NaN. */
  datatype Answers = Answers(
    numPools: Option<int>,
    minTvl: Option<real>,
    runTest: string,
    poolAddress: string,
    below: SideInput,
    above: SideInput,
    amount0: Option<real>,
    amount1: Option<real>,
    daysBack: int)

  /** How a CLI run ends. */
  datatype Outcome =
    | NoActivePools
    | NoQualifyingPools
    | Declined
    | Failed(reason: string)
    | Submitted(request: BacktestRequest)

  /** The pool the backtest runs on: the answer, or the first listed pool
      when the answer is blank (the answer itself is used untrimmed). */
  function ChosenAddress(answer: string, listed: seq<Pool>): (address: string)
    requires listed != []
    ensures IsBlank(answer) ==> address == listed[0].address
    ensures !IsBlank(answer) ==> address == answer
  {
    if Trim(answer) == [] then listed[0].address else answer
  }

  /** The pools the CLI lists for the user's answers. */
  function Listed(answers: Answers, remote: Remote): seq<Pool> {
    SelectPools(remote.activePools, IntOr(answers.numPools, DEFAULT_POOL_COUNT),
                RealOr(answers.minTvl, 0.0))
  }

  /** The window of a run: timestamps ending now, or blocks ending at the live block. */
  function RunWindow(answers: Answers, remote: Remote, now: int, timestampBased: bool): Window {
    if timestampBased then TimestampWindow(now, answers.daysBack)
    else BlockWindow(remote.liveBlock, answers.daysBack)
  }

  /** The request a run submits for a pool: the range resolved around the
      tick at the window's start (timestamp mode) or the pool's last tick
      (block mode), the two encoded deposits, and the window. */
  function PlannedRequest(answers: Answers, remote: Remote, now: int, timestampBased: bool,
                          address: string): BacktestRequest
    requires answers.amount0.Some? && answers.amount1.Some?
  {
    var details := remote.details(address);
    var window := RunWindow(answers, remote, now, timestampBased);
    var reference := if timestampBased then remote.tickAt(address, window.start)
                     else remote.lastTick(address);
    BacktestRequest(
      address,
      Resolve(reference, TickSpacing(details.fee), SideBound(answers.below), SideBound(answers.above)),
      AmountToHex(answers.amount0, details.token0Decimals).value,
      AmountToHex(answers.amount1, details.token1Decimals).value,
      window)
  }

  /** main, from the pool listing to the backtest call: ask for the count
      and TVL threshold, list the qualifying pools, stop when there are none
      or the user declines, and otherwise prepare the backtest on the chosen
      pool. */
  method Run(answers: Answers, remote: Remote, now: int, timestampBased: bool)
    returns (outcome: Outcome)
    ensures outcome == NoActivePools <==> remote.activePools == []
    ensures outcome == NoQualifyingPools <==> remote.activePools != [] && Listed(answers, remote) == []
    ensures outcome == Declined <==>
      Listed(answers, remote) != [] && ToLower(Trim(answers.runTest)) != "yes"
    ensures outcome.Failed? <==>
      Listed(answers, remote) != [] && ToLower(Trim(answers.runTest)) == "yes"
      && (answers.amount0 == None || answers.amount1 == None
          || (timestampBased && !PrintableWindow(now, answers.daysBack)))
    ensures outcome.Submitted? ==>
      && Listed(answers, remote) != []
      && answers.amount0.Some? && answers.amount1.Some?
      && (timestampBased ==> PrintableWindow(now, answers.daysBack))
      && outcome.request == PlannedRequest(answers, remote, now, timestampBased,
                                           ChosenAddress(answers.poolAddress, Listed(answers, remote)))
  {
    var numPools := IntOr(answers.numPools, DEFAULT_POOL_COUNT);
    var minTvl := RealOr(answers.minTvl, 0.0);
    if |remote.activePools| == 0 {
      assert Listed(answers, remote) == [];
      return NoActivePools;
    }
    var filteredPools := SelectPools(remote.activePools, numPools, minTvl);
    if |filteredPools| == 0 {
      return NoQualifyingPools;
    }
    if ToLower(Trim(answers.runTest)) != "yes" {
      return Declined;
    }
    var poolAddress := answers.poolAddress;
    if Trim(poolAddress) == [] {
      poolAddress := filteredPools[0].address;
    }
    outcome := PrepareBacktest(answers, remote, poolAddress, now, timestampBased);
  }

  /** The tick-range derivation main performs twice, around the pool's last
      tick and again around the tick at the window's start: each side is
      MIN_TICK / MAX_TICK when its answer means "infinite" and the reference
      tick plus the side's offset otherwise; the lower bound is then aligned
      down and the upper bound up to the tick spacing. */
  method DeriveRange(reference: int, below: SideInput, above: SideInput, tickSpacing: int)
    returns (tickLower: int, tickUpper: int)
    requires tickSpacing > 0
    ensures TickRange(tickLower, tickUpper)
         == Resolve(reference, tickSpacing, SideBound(below), SideBound(above))
  {
    var rawTickLower: int;
    var rawTickUpper: int;
    if IsInfinite(below.text) {
      rawTickLower := MIN_TICK;
    } else {
      rawTickLower := reference + below.offset;
    }
    if IsInfinite(above.text) {
      rawTickUpper := MAX_TICK;
    } else {
      rawTickUpper := reference + above.offset;
    }
    assert rawTickLower == RawLower(reference, SideBound(below));
    assert rawTickUpper == RawUpper(reference, SideBound(above));
    tickLower := AlignDown(rawTickLower, tickSpacing);
    tickUpper := AlignUp(rawTickUpper, tickSpacing);
  }

  /** The part of main after the pool is chosen: derive the tick range around
      the pool's last tick, encode the deposits, and, in timestamp mode,
      derive it again around the tick at the window's start unless both
      sides are unbounded. The final range is in every case the resolution
      around the tick at the window's start (timestamp mode) or the last
      tick (block mode). */
  method PrepareBacktest(answers: Answers, remote: Remote, poolAddress: string, now: int,
                         timestampBased: bool)
    returns (outcome: Outcome)
    ensures outcome.Failed? || outcome.Submitted?
    ensures outcome.Failed? <==>
      answers.amount0 == None || answers.amount1 == None
      || (timestampBased && !PrintableWindow(now, answers.daysBack))
    ensures outcome.Failed? ==>
      outcome.reason == (if answers.amount0 == None || answers.amount1 == None
                         then NAN_BIGINT_ERROR else INVALID_TIME_ERROR)
    ensures outcome.Submitted? ==>
      outcome.request == PlannedRequest(answers, remote, now, timestampBased, poolAddress)
  {
    var details := remote.details(poolAddress);
    var currentTick := remote.lastTick(poolAddress);
    var tickSpacing := TickSpacing(details.fee);
    var tickLower, tickUpper := DeriveRange(currentTick, answers.below, answers.above, tickSpacing);

    var token0AmountHex := AmountToHex(answers.amount0, details.token0Decimals);
    if token0AmountHex.Err? {
      return Failed(token0AmountHex.error);
    }
    var token1AmountHex := AmountToHex(answers.amount1, details.token1Decimals);
    if token1AmountHex.Err? {
      return Failed(token1AmountHex.error);
    }

    var tickLowerFinal := tickLower;
    var tickUpperFinal := tickUpper;
    if timestampBased {
      var window := TimestampWindow(now, answers.daysBack);
      if !IsValidDate(window.start) || !IsValidDate(window.end) {
        return Failed(INVALID_TIME_ERROR);
      }
      var initialTick := remote.tickAt(poolAddress, window.start);
      if !IsInfinite(answers.below.text) || !IsInfinite(answers.above.text) {
        tickLowerFinal, tickUpperFinal :=
          DeriveRange(initialTick, answers.below, answers.above, tickSpacing);
      } else {
        UnboundedIgnoresReference(currentTick, initialTick, tickSpacing);
      }
      assert TickRange(tickLowerFinal, tickUpperFinal)
          == Resolve(initialTick, tickSpacing, SideBound(answers.below), SideBound(answers.above));
      outcome := Submitted(BacktestRequest(
        poolAddress, TickRange(tickLowerFinal, tickUpperFinal),
        token0AmountHex.value, token1AmountHex.value,
        window));
    } else {
      var window := BlockWindow(remote.liveBlock, answers.daysBack);
      outcome := Submitted(BacktestRequest(
        poolAddress, TickRange(tickLower, tickUpper),
        token0AmountHex.value, token1AmountHex.value,
        window));
    }
  }
}

=== FILE: hex_quantity.dfy ===
/** Hexadecimal integers as the backtest service receives them: the
    Ethereum JSON-RPC QUANTITY form, "0x" followed by lower-case hex digits
    with no leading zeros ("0x0" for zero). */
module HexQuantity {
  import opened Wrappers

  const HEX_CHARS: string := "0123456789abcdef"

  /** Value of one lower-case hex digit; None for any other character. */
  function DigitValue(c: char): Option<nat> {
    if '0' <= c <= '9' then Some(c as int - '0' as int)
    else if 'a' <= c <= 'f' then Some(c as int - 'a' as int + 10)
    else None
  }

  predicate IsHexDigit(c: char) {
    DigitValue(c).Some?
  }

  predicate AllHexDigits(s: string) {
    forall i :: 0 <= i < |s| ==> IsHexDigit(s[i])
  }

  /** Digits with no leading zero, except the single digit "0". */
  predicate IsCanonicalDigits(s: string) {
    |s| >= 1 && AllHexDigits(s) && (|s| == 1 || s[0] != '0')
  }

  function HexDigit(d: nat): (c: char)
    requires d < 16
    ensures DigitValue(c) == Some(d)
  {
    HEX_CHARS[d]
  }

  /** BigInt.prototype.toString(16) for a non-negative value. */
  function HexDigits(n: nat): (s: string)
    ensures IsCanonicalDigits(s)
    ensures n > 0 ==> s[0] != '0'
  {
    if n < 16 then [HexDigit(n)] else HexDigits(n / 16) + [HexDigit(n % 16)]
  }

  /** The number a string of hex digits denotes, most significant digit first. */
  function Value(s: string): nat
    requires AllHexDigits(s)
  {
    if s == [] then 0 else Value(s[..|s| - 1]) * 16 + DigitValue(s[|s| - 1]).value
  }

  /** BigInt.prototype.toString(16) for any value: a minus sign before the
      digits of the magnitude when negative. */
  function SignedHex(n: int): string {
    if n < 0 then "-" + HexDigits(-n) else HexDigits(n)
  }

  /** What `toString(16)` prints denotes the number: canonical digits of
      its value, after a minus sign when it is negative. */
  lemma SignedHexDenotes(n: int)
    ensures n >= 0 ==> IsCanonicalDigits(SignedHex(n)) && Value(SignedHex(n)) == n
    ensures n < 0 ==>
      var s := SignedHex(n);
      |s| >= 2 && s[0] == '-' && IsCanonicalDigits(s[1..]) && Value(s[1..]) == -n
  {
    if n >= 0 {
      ValueOfHexDigits(n);
    } else {
      ValueOfHexDigits(-n);
      assert SignedHex(n)[1..] == HexDigits(-n);
    }
  }

  /** The QUANTITY encoding of a non-negative integer. */
  function Encode(n: nat): (s: string)
    ensures |s| >= 3 && s[..2] == "0x" && IsCanonicalDigits(s[2..])
    ensures s == "0x0" <==> n == 0
  {
    assert ("0x" + HexDigits(n))[2..] == HexDigits(n);
    if n == 0 then
      assert HexDigits(0) == "0";
      "0x" + HexDigits(n)
    else "0x" + HexDigits(n)
  }

  /** The strict QUANTITY parser: "0x", then at least one lower-case hex
      digit, and no leading zero unless the value is zero. */
  function Decode(s: string): Option<nat> {
    if |s| >= 3 && s[..2] == "0x" && IsCanonicalDigits(s[2..]) then Some(Value(s[2..]))
    else None
  }

  lemma {:induction false} ValueOfHexDigits(n: nat)
    ensures Value(HexDigits(n)) == n
  {
    var s := HexDigits(n);
    if n < 16 {
      assert s[..0] == [];
    } else {
      assert s[..|s| - 1] == HexDigits(n / 16);
      ValueOfHexDigits(n / 16);
    }
  }

  /** A digit string whose first digit is not '0' denotes a positive number. */
  lemma {:induction false} LeadingDigitPositive(s: string)
    requires |s| >= 1 && AllHexDigits(s) && s[0] != '0'
    ensures Value(s) > 0
  {
    if |s| > 1 {
      var p := s[..|s| - 1];
      assert p[0] == s[0];
      LeadingDigitPositive(p);
    }
  }

  lemma {:induction false} HexDigitsOfValue(s: string)
    requires IsCanonicalDigits(s)
    ensures HexDigits(Value(s)) == s
  {
    var p := s[..|s| - 1];
    var d := DigitValue(s[|s| - 1]).value;
    if |s| == 1 {
      assert p == [];
      DigitOfValue(s[0]);
    } else {
      assert p[0] == s[0] && IsCanonicalDigits(p);
      LeadingDigitPositive(p);
      HexDigitsOfValue(p);
      var n := Value(s);
      assert n == Value(p) * 16 + d;
      DivModDigit(Value(p), d);
      assert n / 16 == Value(p) && n % 16 == d;
      DigitOfValue(s[|s| - 1]);
      assert HexDigits(n) == p + [s[|s| - 1]];
      assert s == p + [s[|s| - 1]];
    }
  }

  /** A hex digit is the digit of its own value. */
  lemma DigitOfValue(c: char)
    requires IsHexDigit(c)
    ensures HexDigit(DigitValue(c).value) == c
  {
    assert DigitValue(HexDigit(DigitValue(c).value)) == DigitValue(c);
  }

  lemma DivModDigit(v: nat, d: nat)
    requires d < 16
    ensures (v * 16 + d) / 16 == v && (v * 16 + d) % 16 == d
  {
  }

  /** Decoding an encoded integer gives the integer back. */
  lemma DecodeEncode(n: nat)
    ensures Decode(Encode(n)) == Some(n)
  {
    ValueOfHexDigits(n);
    assert Encode(n)[2..] == HexDigits(n);
  }

  /** Every string the parser accepts is the encoding of what it parses to,
      so Encode is a bijection onto the canonical QUANTITY strings. */
  lemma EncodeDecode(s: string)
    requires Decode(s).Some?
    ensures Encode(Decode(s).value) == s
  {
    HexDigitsOfValue(s[2..]);
    assert s == s[..2] + s[2..];
  }

  /** A worked encoding: 1500000 is "0x16e360". */
  lemma Encode1500000()
    ensures Encode(1500000) == "0x16e360"
  {
    DigitsOf1500000();
    assert "0x" + "16e360" == "0x16e360";
  }

  /** A worked encoding: 123456789 is "0x75bcd15". */
  lemma Encode123456789()
    ensures Encode(123456789) == "0x75bcd15"
  {
    DigitsOf123456789();
    assert "0x" + "75bcd15" == "0x75bcd15";
  }

  lemma DigitsOf1500000()
    ensures HexDigits(1500000) == "16e360"
  {
    assert Value("16e360") == 1500000 by {
      assert Value("1") == 1 by { assert "1"[..0] == []; }
      assert Value("16") == 22 by { assert "16"[..1] == "1"; }
      assert Value("16e") == 366 by { assert "16e"[..2] == "16"; }
      assert Value("16e3") == 5859 by { assert "16e3"[..3] == "16e"; }
      assert Value("16e36") == 93750 by { assert "16e36"[..4] == "16e3"; }
      assert "16e360"[..5] == "16e36";
    }
    HexDigitsOfValue("16e360");
  }

  lemma DigitsOf123456789()
    ensures HexDigits(123456789) == "75bcd15"
  {
    assert Value("75bcd15") == 123456789 by {
      assert Value("7") == 7 by { assert "7"[..0] == []; }
      assert Value("75") == 117 by { assert "75"[..1] == "7"; }
      assert Value("75b") == 1883 by { assert "75b"[..2] == "75"; }
      assert Value("75bc") == 30140 by { assert "75bc"[..3] == "75b"; }
      assert Value("75bcd") == 482253 by { assert "75bcd"[..4] == "75bc"; }
      assert Value("75bcd1") == 7716049 by { assert "75bcd1"[..5] == "75bcd"; }
      assert "75bcd15"[..6] == "75bcd1";
    }
    HexDigitsOfValue("75bcd15");
  }

  /** Encoding is injective. */
  lemma EncodeInjective(m: nat, n: nat)
    requires Encode(m) == Encode(n)
    ensures m == n
  {
    DecodeEncode(m);
    DecodeEncode(n);
  }
}

=== FILE: js_builtins.dfy ===
/** The JavaScript built-ins the backtest preparation relies on, stated exactly:
    String.prototype.trim and toLowerCase, Math.round, the `x || fallback`
    default of a parsed number, and Array.prototype.filter and slice(0, n). */
module JsBuiltins {
  import opened Wrappers

  /** The characters `trim` removes: ECMAScript WhiteSpace (tab, vertical tab,
      form feed, space, no-break space, the byte-order mark and every Zs space)
      and LineTerminator (LF, CR, U+2028, U+2029). */
  predicate IsJsWhitespace(c: char) {
    var u := c as int;
    u == 0x09 || u == 0x0A || u == 0x0B || u == 0x0C || u == 0x0D || u == 0x20
    || u == 0xA0 || u == 0x1680 || (0x2000 <= u <= 0x200A) || u == 0x2028
    || u == 0x2029 || u == 0x202F || u == 0x205F || u == 0x3000 || u == 0xFEFF
  }

  /** Number of whitespace characters at the front of `s`. */
  function LeadingWhitespace(s: string): (k: nat)
    ensures k <= |s|
    ensures forall i :: 0 <= i < k ==> IsJsWhitespace(s[i])
    ensures k < |s| ==> !IsJsWhitespace(s[k])
  {
    if s != [] && IsJsWhitespace(s[0]) then 1 + LeadingWhitespace(s[1..]) else 0
  }

  /** Number of whitespace characters at the end of `s`. */
  function TrailingWhitespace(s: string): (k: nat)
    ensures k <= |s|
    ensures forall i :: |s| - k <= i < |s| ==> IsJsWhitespace(s[i])
    ensures k < |s| ==> !IsJsWhitespace(s[|s| - k - 1])
  {
    if s != [] && IsJsWhitespace(s[|s| - 1]) then 1 + TrailingWhitespace(s[..|s| - 1]) else 0
  }

  /** A string made of whitespace only (the empty string included). */
  predicate IsBlank(s: string) {
    forall i :: 0 <= i < |s| ==> IsJsWhitespace(s[i])
  }

  /** String.prototype.trim: `s` without its leading and trailing whitespace.
      Only a blank string trims to the empty string. */
  function Trim(s: string): (r: string)
    ensures r == [] || (!IsJsWhitespace(r[0]) && !IsJsWhitespace(r[|r| - 1]))
    ensures |r| <= |s|
    ensures r == [] <==> IsBlank(s)
  {
    var front := LeadingWhitespace(s);
    var rest := s[front..];
    rest[..|rest| - TrailingWhitespace(rest)]
  }

  /** Trimming removes exactly the whitespace padding around a core that
      neither starts nor ends with whitespace. */
  lemma {:induction false} TrimRemovesPadding(pre: string, core: string, post: string)
    requires forall i :: 0 <= i < |pre| ==> IsJsWhitespace(pre[i])
    requires forall i :: 0 <= i < |post| ==> IsJsWhitespace(post[i])
    requires core != [] && !IsJsWhitespace(core[0]) && !IsJsWhitespace(core[|core| - 1])
    ensures Trim(pre + core + post) == core
  {
    var s := pre + core + post;
    LeadingOfPadded(pre, core + post);
    assert s[|pre|..] == core + post;
    TrailingOfPadded(core, post);
  }

  lemma {:induction false} LeadingOfPadded(pre: string, rest: string)
    requires forall i :: 0 <= i < |pre| ==> IsJsWhitespace(pre[i])
    requires rest != [] && !IsJsWhitespace(rest[0])
    ensures LeadingWhitespace(pre + rest) == |pre|
  {
    if pre != [] {
      assert (pre + rest)[1..] == pre[1..] + rest;
      LeadingOfPadded(pre[1..], rest);
    } else {
      assert pre + rest == rest;
    }
  }

  lemma {:induction false} TrailingOfPadded(rest: string, post: string)
    requires forall i :: 0 <= i < |post| ==> IsJsWhitespace(post[i])
    requires rest != [] && !IsJsWhitespace(rest[|rest| - 1])
    ensures TrailingWhitespace(rest + post) == |post|
  {
    if post != [] {
      assert (rest + post)[..|rest + post| - 1] == rest + post[..|post| - 1];
      TrailingOfPadded(rest, post[..|post| - 1]);
    } else {
      assert rest + post == rest;
    }
  }

  /** toLowerCase on one character; only the ASCII letters A-Z are mapped. */
  function LowerChar(c: char): (l: char)
    ensures 'A' <= c <= 'Z' ==> l as int == c as int + 32
    ensures !('A' <= c <= 'Z') ==> l == c
  {
    if 'A' <= c <= 'Z' then (c as int + 32) as char else c
  }

  /** String.prototype.toLowerCase, character by character. */
  function ToLower(s: string): (r: string)
    ensures |r| == |s|
    ensures forall i :: 0 <= i < |s| ==> r[i] == LowerChar(s[i])
  {
    seq(|s|, i requires 0 <= i < |s| => LowerChar(s[i]))
  }

  /** Math.round: the nearest integer, halves rounded towards +infinity. */
  function JsRound(x: real): (n: int)
    ensures n as real - 0.5 <= x < n as real + 0.5
  {
    (x + 0.5).Floor
  }

  /** `parseInt(text) || fallback`: NaN (None) and 0 are falsy and give the fallback. */
  function IntOr(parsed: Option<int>, fallback: int): (n: int)
    ensures parsed.Some? && parsed.value != 0 ==> n == parsed.value
    ensures parsed == None || parsed == Some(0) ==> n == fallback
  {
    if parsed.Some? && parsed.value != 0 then parsed.value else fallback
  }

  /** `parseFloat(text) || fallback`: NaN (None) and 0 are falsy and give the fallback. */
  function RealOr(parsed: Option<real>, fallback: real): (x: real)
    ensures parsed.Some? && parsed.value != 0.0 ==> x == parsed.value
    ensures parsed == None || parsed == Some(0.0) ==> x == fallback
  {
    if parsed.Some? && parsed.value != 0.0 then parsed.value else fallback
  }

  /** Array.prototype.filter: the elements satisfying `p`, in their original order. */
  function Filter<T(!new)>(s: seq<T>, p: T -> bool): (r: seq<T>)
    ensures |r| <= |s|
    ensures forall x :: x in r <==> x in s && p(x)
  {
    if s == [] then [] else (if p(s[0]) then [s[0]] else []) + Filter(s[1..], p)
  }

  /** Filtering a concatenation filters each part in place: the relative order
      of the kept elements is the order of the input. */
  lemma {:induction false} FilterAppend<T(!new)>(a: seq<T>, b: seq<T>, p: T -> bool)
    ensures Filter(a + b, p) == Filter(a, p) + Filter(b, p)
  {
    if a != [] {
      assert (a + b)[0] == a[0];
      assert (a + b)[1..] == a[1..] + b;
      FilterAppend(a[1..], b, p);
    } else {
      assert a + b == b;
    }
  }

  /** Two filters in a row keep exactly what the conjunction of their tests keeps. */
  lemma {:induction false} FilterTwice<T(!new)>(s: seq<T>, p: T -> bool, q: T -> bool, pq: T -> bool)
    requires forall x :: x in s ==> pq(x) == (p(x) && q(x))
    ensures Filter(Filter(s, p), q) == Filter(s, pq)
  {
    if s != [] {
      FilterTwice(s[1..], p, q, pq);
      var head := if p(s[0]) then [s[0]] else [];
      FilterAppend(head, Filter(s[1..], p), q);
    }
  }

  /** Filters whose tests agree on every element of `s` keep the same elements. */
  lemma {:induction false} FilterCongruent<T(!new)>(s: seq<T>, p: T -> bool, q: T -> bool)
    requires forall x :: x in s ==> p(x) == q(x)
    ensures Filter(s, p) == Filter(s, q)
  {
    if s != [] {
      FilterCongruent(s[1..], p, q);
    }
  }

  /** The end index `slice(0, end)` stops at: a negative end counts back from
      the length (never below 0), a non-negative one is capped at the length. */
  function SliceEnd(length: nat, end: int): (e: nat)
    ensures e <= length
    ensures end >= 0 ==> e == if end < length then end else length
    ensures end < 0 ==> e == if length + end > 0 then length + end else 0
  {
    if end < 0 then (if length + end > 0 then length + end else 0)
    else if end < length then end else length
  }

  /** Array.prototype.slice(0, end). */
  function Slice<T>(s: seq<T>, end: int): (r: seq<T>)
    ensures r <= s
    ensures |r| == SliceEnd(|s|, end)
  {
    s[..SliceEnd(|s|, end)]
  }
}

=== FILE: oku_data.dfy ===
/** The records exchanged with the remote Oku service and the request a
    backtest submits. The service itself is a value of type Remote: each
    remote call it answers is a total function of its arguments. */
module OkuData {
  import opened Ticks

  /** A pool as the topPools call lists it (only the fields the selection reads). */
  datatype Pool = Pool(address: string, tvlUsd: real, totalFeesUsd: real)

  /** A pool's fee tier and its two tokens' decimal precisions. */
  datatype PoolDetails = PoolDetails(fee: int, token0Decimals: nat, token1Decimals: nat)

  /** The backtest window: epoch milliseconds, or block numbers. */
  datatype Window = Timestamps(start: int, end: int) | Blocks(start: int, end: int)

  /** The arguments of the remote backtest call. */
  datatype BacktestRequest = BacktestRequest(
    pool: string,
    range: TickRange,
    amount0: string,
    amount1: string,
    window: Window)

  /** Answers of the remote service: the live block, the active pools, and
      per pool its details, its last tick and its tick at a timestamp. */
  datatype Remote = Remote(
    liveBlock: int,
    activePools: seq<Pool>,
    details: string -> PoolDetails,
    lastTick: string -> int,
    tickAt: (string, int) -> int)
}

=== FILE: pools_route.dfy ===
/** The pool-listing route of the web front end (frontend/pages/api/pools.js):
    a GET with optional `num` and `minTvl` query values lists the active
    pools with at least that TVL and positive TVL and fees, up to `num` of
    them. */
module PoolsRoute {
  import opened Wrappers
  import opened JsBuiltins
  import opened OkuData
  import Cli

  /** Number of pools listed when `num` is missing, unparsable or 0. */
  const DEFAULT_POOL_COUNT: int := 10

  /** The first filter: TVL at least the threshold. */
  predicate MeetsTvl(pool: Pool, minTvl: real) {
    pool.tvlUsd >= minTvl
  }

  /** The second filter: positive TVL, and then positive fees. */
  predicate HasFees(pool: Pool) {
    if pool.tvlUsd > 0.0 then pool.totalFeesUsd > 0.0 else false
  }

  /** The route's two filters in a row keep exactly the qualifying pools. */
  lemma TwoFiltersQualify(pools: seq<Pool>, minTvl: real)
    ensures Filter(Filter(pools, p => MeetsTvl(p, minTvl)), HasFees) == Cli.Qualifying(pools, minTvl)
  {
    FilterTwice(pools, p => MeetsTvl(p, minTvl), HasFees, p => Cli.Qualifies(p, minTvl));
  }

  /** The route's fee test and the CLI's positive-APR test keep the same
      pools of any list. */
  lemma SecondFiltersAgree(pools: seq<Pool>)
    ensures Filter(pools, HasFees) == Filter(pools, Cli.HasPositiveApr)
  {
    forall p | p in pools
      ensures HasFees(p) == Cli.HasPositiveApr(p)
    {
      Cli.PositiveAprMeansPositiveFees(p);
    }
    FilterCongruent(pools, HasFees, Cli.HasPositiveApr);
  }

  /** filter by TVL, filter by fees, slice(0, numPools): a prefix of the
      qualifying pools of the length JS's slice gives. */
  function SelectPools(pools: seq<Pool>, numPools: int, minTvl: real): (r: seq<Pool>)
    ensures r <= Cli.Qualifying(pools, minTvl)
    ensures |r| == SliceEnd(|Cli.Qualifying(pools, minTvl)|, numPools)
    ensures forall p :: p in r ==> p in pools && Cli.Qualifies(p, minTvl)
  {
    var byTvl := Filter(pools, p => MeetsTvl(p, minTvl));
    var byFees := Filter(byTvl, HasFees);
    TwoFiltersQualify(pools, minTvl);
    var r := Slice(byFees, numPools);
    assert forall p :: p in r ==> p in Cli.Qualifying(pools, minTvl);
    r
  }

  /** The route and the CLI select the same pools for the same count and
      threshold: the CLI's positive-APR test keeps exactly the pools with
      positive TVL and fees. */
  lemma SelectionsAgree(pools: seq<Pool>, numPools: int, minTvl: real)
    ensures SelectPools(pools, numPools, minTvl) == Cli.SelectPools(pools, numPools, minTvl)
  {
    var q := Cli.Qualifying(pools, minTvl);
    var r1 := SelectPools(pools, numPools, minTvl);
    var r2 := Cli.SelectPools(pools, numPools, minTvl);
    assert r1 == q[..|r1|] && r2 == q[..|r2|];
  }

  /** The query string after parseInt / parseFloat (None for NaN). */
  datatype Query = Query(num: Option<int>, minTvl: Option<real>)

  /** How the handler answers: an error status with its message, or 200
      with the selected pools. */
  datatype Response =
    | Respond(status: int, error: string)
    | Listed(pools: seq<Pool>)

  /** The handler. `upstream` is the pool list of the active-pools call,
      None when the answer has no `result.pools`. A method other than GET is
      rejected with 405 whatever the upstream would answer; a missing list
      gives 500; otherwise the selection under the query's defaults
      (`num || 10`, `minTvl || 0`) is listed. */
  function Handle(httpMethod: string, query: Query, upstream: Option<seq<Pool>>): (r: Response)
    ensures httpMethod != "GET" ==> r == Respond(405, "Method not allowed")
    ensures httpMethod == "GET" && upstream.None? ==>
      r == Respond(500, "Invalid response from Oku API")
    ensures r.Listed? <==> httpMethod == "GET" && upstream.Some?
    ensures r.Listed? ==>
      var minTvl := RealOr(query.minTvl, 0.0);
      && r.pools <= Cli.Qualifying(upstream.value, minTvl)
      && |r.pools| == SliceEnd(|Cli.Qualifying(upstream.value, minTvl)|,
                               IntOr(query.num, DEFAULT_POOL_COUNT))
      && (forall p :: p in r.pools ==> p in upstream.value && Cli.Qualifies(p, minTvl))
  {
    if httpMethod != "GET" then Respond(405, "Method not allowed")
    else
      var numPools := IntOr(query.num, DEFAULT_POOL_COUNT);
      var minTvl := RealOr(query.minTvl, 0.0);
      match upstream
      case None => Respond(500, "Invalid response from Oku API")
      case Some(pools) => Listed(SelectPools(pools, numPools, minTvl))
  }

  /** Without a usable `num` the route lists at most ten pools. */
  lemma DefaultListsAtMostTen(query: Query, pools: seq<Pool>)
    requires query.num == None || query.num == Some(0)
    ensures |Handle("GET", query, Some(pools)).pools| <= 10
  {
  }

  /** Given the same pool list, count and threshold, the route lists exactly
      the pools the CLI offers; only the default count differs (10 here,
      50 in the CLI). */
  lemma RouteListsWhatCliLists(query: Query, answers: Cli.Answers, remote: Remote)
    requires query.minTvl == answers.minTvl
    requires IntOr(query.num, DEFAULT_POOL_COUNT) == IntOr(answers.numPools, Cli.DEFAULT_POOL_COUNT)
    ensures Handle("GET", query, Some(remote.activePools)) == Listed(Cli.Listed(answers, remote))
  {
    SelectionsAgree(remote.activePools, IntOr(query.num, DEFAULT_POOL_COUNT),
                    RealOr(query.minTvl, 0.0));
  }

  /** With no `num` in either, the two lists differ exactly when more than
      ten pools qualify. */
  lemma DefaultCountsDiffer(query: Query, answers: Cli.Answers, remote: Remote)
    requires query.num == None && answers.numPools == None
    requires query.minTvl == answers.minTvl
    ensures var q := Cli.Qualifying(remote.activePools, RealOr(query.minTvl, 0.0));
      Handle("GET", query, Some(remote.activePools)) == Listed(Cli.Listed(answers, remote))
      <==> |q| <= 10
  {
    var minTvl := RealOr(query.minTvl, 0.0);
    var q := Cli.Qualifying(remote.activePools, minTvl);
    SelectionsAgree(remote.activePools, 10, minTvl);
    var r := Handle("GET", query, Some(remote.activePools));
    var c := Cli.Listed(answers, remote);
    if |q| > 10 {
      assert |r.pools| == 10;
      assert |c| > 10;
    }
  }
}

=== FILE: ticks.dfy ===
/** Tick bounds of a Uniswap v3 position: the protocol's tick limits, the
    floor/ceil alignment to a tick spacing, and the resolution of a reference
    tick plus one offset (or "infinite") per side into an aligned range. */
module Ticks {
  /** The theoretical tick limits of Uniswap v3 (section 6.1 of the
      Uniswap v3 Core whitepaper). */
  const MIN_TICK: int := -887272
  const MAX_TICK: int := 887272

  datatype TickRange = TickRange(lower: int, upper: int)

  /** One side of a requested range: unbounded (the word "infinite"), or a
      signed tick offset from the reference tick. The offset is what
      `Math.round(Math.log(1 ± pct/100) / Math.log(1.0001))` gives for the
      user's percentage; it is an input here. */
  datatype Bound = Unbounded | Offset(ticks: int)

  /** One side as the caller supplied it: the text that is compared with
      "infinite", and the tick offset its percentage gives otherwise. */
  datatype SideInput = SideInput(text: string, offset: int)

  /** `Math.floor(raw / spacing) * spacing`: the greatest multiple of
      `spacing` that is at most `raw`. */
  function AlignDown(raw: int, spacing: int): (t: int)
    requires spacing > 0
    ensures t % spacing == 0
    ensures raw - spacing < t <= raw
  {
    var q := raw / spacing;
    MultipleHasNoRemainder(q, spacing);
    q * spacing
  }

  /** `Math.ceil(raw / spacing) * spacing`: the least multiple of `spacing`
      that is at least `raw`. */
  function AlignUp(raw: int, spacing: int): (t: int)
    requires spacing > 0
    ensures t % spacing == 0
    ensures raw <= t < raw + spacing
  {
    var q := -((-raw) / spacing);
    MultipleHasNoRemainder(q, spacing);
    q * spacing
  }

  /** A product with the spacing leaves no remainder. */
  lemma MultipleHasNoRemainder(q: int, spacing: int)
    requires spacing > 0
    ensures (q * spacing) % spacing == 0
  {
    var m := q * spacing;
    var k := q - m / spacing;
    assert m % spacing == k * spacing;
    ScaledBySpacing(k, spacing);
  }

  /** Multiplying by a positive spacing keeps the sign and moves away from 0
      by at least one spacing. */
  lemma ScaledBySpacing(k: int, spacing: int)
    requires spacing > 0
    ensures k >= 1 ==> k * spacing >= spacing
    ensures k <= -1 ==> k * spacing <= -spacing
    ensures k == 0 ==> k * spacing == 0
  {
  }

  /** No multiple of the spacing lies strictly between AlignDown(raw) and raw. */
  lemma AlignDownIsGreatest(raw: int, spacing: int, m: int)
    requires spacing > 0 && m % spacing == 0 && m <= raw
    ensures m <= AlignDown(raw, spacing)
  {
    var t := AlignDown(raw, spacing);
    if m > t {
      MultiplesApart(t, m, spacing);
    }
  }

  /** No multiple of the spacing lies strictly between raw and AlignUp(raw). */
  lemma AlignUpIsLeast(raw: int, spacing: int, m: int)
    requires spacing > 0 && m % spacing == 0 && raw <= m
    ensures AlignUp(raw, spacing) <= m
  {
    var t := AlignUp(raw, spacing);
    if m < t {
      MultiplesApart(m, t, spacing);
    }
  }

  /** Two distinct multiples of a positive spacing are at least one spacing apart. */
  lemma MultiplesApart(a: int, b: int, spacing: int)
    requires spacing > 0 && a % spacing == 0 && b % spacing == 0 && a < b
    ensures b - a >= spacing
  {
    var qa, qb := a / spacing, b / spacing;
    assert a == qa * spacing && b == qb * spacing;
    assert b - a == (qb - qa) * spacing;
    ScaledBySpacing(qb - qa, spacing);
  }

  /** Aligning a value that is already a multiple of the spacing leaves it
      unchanged, in either direction; hence alignment is idempotent. */
  lemma AlignAligned(t: int, spacing: int)
    requires spacing > 0 && t % spacing == 0
    ensures AlignDown(t, spacing) == t
    ensures AlignUp(t, spacing) == t
  {
    AlignDownIsGreatest(t, spacing, t);
    AlignUpIsLeast(t, spacing, t);
  }

  /** The raw lower bound: MIN_TICK when unbounded, else reference + offset. */
  function RawLower(reference: int, below: Bound): (raw: int)
    ensures below.Unbounded? ==> raw == MIN_TICK
    ensures below.Offset? ==> raw - reference == below.ticks
  {
    match below
    case Unbounded => MIN_TICK
    case Offset(d) => reference + d
  }

  /** The raw upper bound: MAX_TICK when unbounded, else reference + offset. */
  function RawUpper(reference: int, above: Bound): (raw: int)
    ensures above.Unbounded? ==> raw == MAX_TICK
    ensures above.Offset? ==> raw - reference == above.ticks
  {
    match above
    case Unbounded => MAX_TICK
    case Offset(d) => reference + d
  }

  /** The aligned range: lower bound aligned down, upper bound aligned up.
      Nothing clamps the result to [MIN_TICK, MAX_TICK] and nothing checks
      that lower < upper. */
  function Resolve(reference: int, spacing: int, below: Bound, above: Bound): (r: TickRange)
    requires spacing > 0
    ensures r.lower % spacing == 0 && r.upper % spacing == 0
    ensures RawLower(reference, below) - spacing < r.lower <= RawLower(reference, below)
    ensures RawUpper(reference, above) <= r.upper < RawUpper(reference, above) + spacing
  {
    TickRange(AlignDown(RawLower(reference, below), spacing),
              AlignUp(RawUpper(reference, above), spacing))
  }

  /** Alignment never narrows the requested range: any aligned range that
      covers the raw bounds also covers the resolved one. */
  lemma ResolveIsTightest(reference: int, spacing: int, below: Bound, above: Bound, lo: int, hi: int)
    requires spacing > 0 && lo % spacing == 0 && hi % spacing == 0
    requires lo <= RawLower(reference, below) && RawUpper(reference, above) <= hi
    ensures lo <= Resolve(reference, spacing, below, above).lower
    ensures Resolve(reference, spacing, below, above).upper <= hi
  {
    AlignDownIsGreatest(RawLower(reference, below), spacing, lo);
    AlignUpIsLeast(RawUpper(reference, above), spacing, hi);
  }

  /** A non-positive offset below (or an unbounded side) and a non-negative
      offset above (or an unbounded side) give a range containing the
      reference tick, for a reference tick inside the protocol limits. */
  lemma ResolveContainsReference(reference: int, spacing: int, below: Bound, above: Bound)
    requires spacing > 0 && MIN_TICK <= reference <= MAX_TICK
    requires below.Offset? ==> below.ticks <= 0
    requires above.Offset? ==> above.ticks >= 0
    ensures Resolve(reference, spacing, below, above).lower <= reference
    ensures reference <= Resolve(reference, spacing, below, above).upper
  {
  }

  /** With both sides unbounded the reference tick plays no part. */
  lemma UnboundedIgnoresReference(r1: int, r2: int, spacing: int)
    requires spacing > 0
    ensures Resolve(r1, spacing, Unbounded, Unbounded) == Resolve(r2, spacing, Unbounded, Unbounded)
  {
  }

  /** An unbounded side leaves the protocol limits for every spacing the
      fee tiers give, since none of 10, 60, 200 divides 887272: the range
      is not clamped back. */
  lemma UnboundedLeavesTickLimits(reference: int, spacing: int)
    requires spacing == 10 || spacing == 60 || spacing == 200
    ensures Resolve(reference, spacing, Unbounded, Unbounded).lower < MIN_TICK
    ensures Resolve(reference, spacing, Unbounded, Unbounded).upper > MAX_TICK
  {
    var r := Resolve(reference, spacing, Unbounded, Unbounded);
    assert MIN_TICK % spacing != 0 && MAX_TICK % spacing != 0;
  }

  /** For spacing 60 the unbounded range is exactly (-887280, 887280). */
  lemma UnboundedRangeSpacing60(reference: int)
    ensures Resolve(reference, 60, Unbounded, Unbounded) == TickRange(-887280, 887280)
  {
  }

  /** Nothing rejects an empty range: zero offsets around an aligned
      reference tick give lower == upper. */
  lemma ZeroOffsetsGiveEmptyRange(reference: int, spacing: int)
    requires spacing > 0 && reference % spacing == 0
    ensures Resolve(reference, spacing, Offset(0), Offset(0)) == TickRange(reference, reference)
  {
    AlignAligned(reference, spacing);
  }

  /** Reference tick 0, spacing 60, offsets -1054 and 953 (10% below and
      above) give the range (-1080, 960). */
  lemma TenPercentAroundZero()
    ensures Resolve(0, 60, Offset(-1054), Offset(953)) == TickRange(-1080, 960)
  {
  }
}

=== FILE: wrappers.dfy ===
/** Option and Result values: a JavaScript value that may be NaN or missing,
    and an operation that may throw. */
module Wrappers {
  datatype Option<+T> = None | Some(value: T)

  datatype Result<+T, +E> = Ok(value: T) | Err(error: E)
}
